=== FILE: README.md ===
# Scroll anchoring and WGSL constant values, in Dafny

This project models two pieces of WebKit.

**Scroll anchoring.** WebCore keeps one `ScrollAnchoringController` per scrollable area. When content above the visible region changes size, the controller stops the visible content from jumping. It chooses an *anchor* element inside the scroller and records the anchor's offset from the scroller's bounding rectangle. After the next layout it scrolls by however far the anchor has moved. The model covers these parts:

- the candidate classifier `examineCandidate`, which returns Select, Exclude, Skip or Descend;
- the pre-order anchor search `findAnchorElementRecursive`;
- the focused-element priority path `anchorElementForPriorityCandidate` and `didFindPriorityCandidate`;
- the state machine built from `invalidateAnchorElement`, `chooseAnchorElement`, `updateAnchorElement` and `adjustScrollPositionForAnchoring`.

The controller is an immutable `State` with three parts. `Controller` holds the anchor handle, `lastOffset`, the queued flag and the mid-adjustment guard. `Scroller` holds the scroll position, the current scroll type, whether `requestScrollToPosition` is accepted, and a log of scroll calls. The third part counts how many times the scroller was queued with the frame. Each entry point is a pure function from `State` to `State`. What the controller reads of the world is an `Env`:

- the element tree;
- whether the frame has a document;
- the body element;
- the focused element, as a path from the root;
- the scroller's element and bounding rectangle;
- the layout phase.

Each element carries an identifier, an `<html>` tag flag, an optional renderer and its element children. A renderer is a record of capability flags plus an integer bounding box. The anchor is stored as an element identifier. Its liveness probe (`RendererOf`) looks the identifier up in the current tree and reads the renderer.

**WGSL constant values.** `WGSL::ConstantValue` is a variant of float, double, i32, u32, abstract int, bool, array, vector and matrix. The model covers its `is*` predicates and accessors, the array, vector and matrix constructors, and the checked narrowing `convertInteger`.

Some behaviours of the code that a reader might not expect:

- The veto loop of the priority path (`ScrollAnchoringController.cpp:110-116`) reads `element->renderer()`, which is the *focused* element, on every step. It never reads the element being walked over. So only the focused element's own `overflow-anchor: none` can veto, and only when the walk takes at least one step, that is, when the candidate is not the scroller's element. An ancestor that opts out is ignored (`PriorityCandidate.AncestorOptOutIgnored`). Because of this, an element with `overflow-anchor: none` can still become the anchor through the priority path, although the CSS Scroll Anchoring specification describes `overflow-anchor: none` as excluding an element and its subtree from anchor selection.
- `adjustScrollPositionForAnchoring` calls `invalidateAnchorElement` (`:258`) while its own guard is set (`:252`). That call is therefore a no-op, and a dead anchor survives the adjustment. It is dropped by the next `invalidateAnchorElement` made outside an adjustment, or by the next `updateAnchorElement` that gets past its early return.
- `lastOffset` is not refreshed after a correction is issued (`:261-272`), so it keeps the offset recorded when the anchor was chosen.
- `chooseAnchorElement` would clear the anchor and then dereference it if an anchor were already set (`:216-225`). Its only caller reaches it with no anchor (`:241-242`), so the model requires `anchor == None`.
- `ConstantMatrix(columns, rows)` multiplies two `uint32_t` values in 32-bit arithmetic (`ConstantValue.h:73`). The element count is therefore the product modulo 2^32. This is modelled explicitly; the lemma `MatrixSizeWraps` shows the wrap, and `ShaderMatrixSize` shows that no matrix WGSL can express is affected.

`contains` and `intersects` on `IntRect` come from the platform layer. They are defined here as the usual axis-aligned integer predicates: containment allows touching edges, and empty rectangles intersect nothing.

## Model

| member | source | states |
|---|---|---|
| CandidateExamination.Examine | Source/WebCore/page/scrolling/ScrollAnchoringController.cpp:130-159 | Each verdict is characterised by an if-and-only-if. Select: the element passes every earlier check and its box is contained in the scroller rect, or intersects it while being a scrolling node. Descend: it passes every check and intersects without containment, and is not a scrolling node. Exclude: it has a renderer, is not the scroller element, and either is excluded by style or is a disjoint scrolling node. Select and Descend imply a renderer with overflow-anchor auto that is not sticky, fixed, pseudo or an anonymous block. |
| CandidateExamination.ExclusionPrecedesSkips | Source/WebCore/page/scrolling/ScrollAnchoringController.cpp:141-147 | overflow-anchor none, sticky, fixed, pseudo-element and anonymous block give Exclude even when the element is the body, `<html>`, inline, or has zero size. |
| CandidateExamination.ScrollerOrUnrenderedSkipped | Source/WebCore/page/scrolling/ScrollAnchoringController.cpp:132-138 | The scroller's own element, and any element without a renderer, is skipped whatever its style. |
| CandidateExamination.NeverSelectedWhenExcluded | Source/WebCore/page/scrolling/ScrollAnchoringController.cpp:141-142 | An element excluded by style is neither selected nor descended into. |
| CandidateExamination.ContainedIsSelected | Source/WebCore/page/scrolling/ScrollAnchoringController.cpp:148-149 | A sized, eligible box fully inside the scroller rect is selected. |
| CandidateExamination.ClassifierScenario | Source/WebCore/page/scrolling/ScrollAnchoringController.cpp:145-156 | With scroller rect [0,0,400,300]: a contained box is selected, a partly visible plain box gives Descend, and a disjoint scrolling node is excluded. |
| AnchorSearch.FindAnchorElementRecursive | Source/WebCore/page/scrolling/ScrollAnchoringController.cpp:182-207 | A null input gives null. Any result is Select or Descend and is among the elements the search examines. The result is null exactly when no examined element is Select or Descend. |
| AnchorSearch.FindInElement | Source/WebCore/page/scrolling/ScrollAnchoringController.cpp:187-206 | The same three facts for one element, proved using the contracts of its recursive calls. |
| AnchorSearch.FindInChildren | Source/WebCore/page/scrolling/ScrollAnchoringController.cpp:197-200 | The same three facts for a child list, whose examined elements are the concatenation of the children's. |
| AnchorSearch.FoundInSubtree | Source/WebCore/page/scrolling/ScrollAnchoringController.cpp:196-206 | The returned anchor is an element of the searched subtree. |
| AnchorSearch.ExcludePrunesSubtree | Source/WebCore/page/scrolling/ScrollAnchoringController.cpp:193-194 | An Exclude element yields null, and none of its descendants is examined. |
| AnchorSearch.FirstSuccessfulChild | Source/WebCore/page/scrolling/ScrollAnchoringController.cpp:197-200 | Over the children, the result is that of the first child, in document order, whose own search succeeds. |
| AnchorSearch.NoChildSucceeds | Source/WebCore/page/scrolling/ScrollAnchoringController.cpp:204-206 | When no child's search succeeds, Descend returns the element itself and Skip returns null. |
| AnchorSearch.NoSelectBeforeResult | Source/WebCore/page/scrolling/ScrollAnchoringController.cpp:190-206 | The result has a position in the order of examination, and no Select element is examined before it. |
| PriorityCandidate.AnchorElementForPriorityCandidate | Source/WebCore/page/scrolling/ScrollAnchoringController.cpp:88-98 | The result is the nearest ancestor-or-self that is rendered, not an anonymous block, and not non-atomic inline. The result is null exactly when the chain up to the root has none. |
| PriorityCandidate.VetoedOnWalk | Source/WebCore/page/scrolling/ScrollAnchoringController.cpp:110-116 | The walk vetoes if and only if it takes a step (the candidate is not the scroller's element) and the focused element's renderer has overflow-anchor none. |
| PriorityCandidate.ViablePriorityCandidate | Source/WebCore/page/scrolling/ScrollAnchoringController.cpp:102-118 | No focus gives null. Success returns the nearest viable ancestor-or-self, when it is the scroller element or the focused element does not opt out. Failure means there is no viable element, or the nearest is not the scroller element and the focused element opts out. |
| PriorityCandidate.FocusedOptOutVetoes | Source/WebCore/page/scrolling/ScrollAnchoringController.cpp:110-116 | A focused element with overflow-anchor none yields a candidate only when that candidate is the scroller's own element. |
| PriorityCandidate.AncestorOptOutIgnored | Source/WebCore/page/scrolling/ScrollAnchoringController.cpp:111-113 | A focused span under a div with overflow-anchor none is still the candidate: only the focused element's own style is read. |
| ScrollAnchoringController.OffsetFromOwningScroller | Source/WebCore/page/scrolling/ScrollAnchoringController.cpp:82-86 | Moving the scroller rect's origin by the offset gives the box's origin. |
| ScrollAnchoringController.InvalidateAnchorElement | Source/WebCore/page/scrolling/ScrollAnchoringController.cpp:53-63 | Under the guard, nothing changes. Otherwise the anchor, offset and queued flag are cleared, the scroller is queued exactly once, the scroller is untouched, and "queued implies anchored" is kept. |
| ScrollAnchoringController.DidFindPriorityCandidate | Source/WebCore/page/scrolling/ScrollAnchoringController.cpp:100-128 | Succeeds exactly when the focused element yields a viable candidate. It then anchors to that candidate and records the candidate's offset from the scroller, leaving both flags alone. |
| ScrollAnchoringController.ChooseAnchorElement | Source/WebCore/page/scrolling/ScrollAnchoringController.cpp:209-227 | The priority candidate wins over the search. Otherwise the element `FindAnchorElementRecursive` returns becomes the anchor, with its offset recorded. Any anchor chosen is eligible. With neither a candidate nor a search result, the state is unchanged. The choice never queues and never scrolls. |
| ScrollAnchoringController.UpdateAnchorElement | Source/WebCore/page/scrolling/ScrollAnchoringController.cpp:229-248 | No effect at scroll position zero, when already queued, outside the OutsideLayout phase, or without a document. Otherwise the result is queued exactly when an anchor is held. A live anchor is kept with its offset and queued once. Under the guard, a dead anchor is kept and queued. In every other case with no live anchor (including no anchor at all under the guard), a dead anchor is invalidated (one enqueue, offset reset) and a new one is chosen: the priority candidate, else the search result. The result ends with no anchor exactly when both fail, and is queued (one more enqueue) when one is found. The scroller is never moved, and "queued implies anchored" is kept. |
| ScrollAnchoringController.AnchorDelta | Source/WebCore/page/scrolling/ScrollAnchoringController.cpp:256-261 | Defined exactly when the anchor is live, and then equal to the anchor's current offset minus the recorded offset. |
| ScrollAnchoringController.ScrollBy | Source/WebCore/page/scrolling/ScrollAnchoringController.cpp:263-271 | One programmatic request to position + delta, carrying the delta. If the request is rejected, an immediate set to the same target follows. The prior scroll type is restored, and earlier calls are kept. |
| ScrollAnchoringController.AdjustBody | Source/WebCore/page/scrolling/ScrollAnchoringController.cpp:254-272 | Runs with the guard set, so the controller fields and the enqueue count never change, even on the dead-anchor path. It scrolls exactly when the flag was queued and the live anchor's delta is non-zero. |
| ScrollAnchoringController.AdjustScrollPositionForAnchoring | Source/WebCore/page/scrolling/ScrollAnchoringController.cpp:250-273 | The queued flag is consumed. The guard is restored to its prior value. The anchor and `lastOffset` are unchanged, and nothing is queued. There is no scroll without a queued, live, moved anchor; otherwise there is exactly one ScrollBy by the delta. |
| ScrollAnchoringController.SecondAdjustmentIsNoOp | Source/WebCore/page/scrolling/ScrollAnchoringController.cpp:252-255 | A second adjustment with no update in between issues no scroll call. |
| ScrollAnchoringController.InvariantPreserved | Source/WebCore/page/scrolling/ScrollAnchoringController.cpp:241-247 | Invalidate, choose, update and adjust all preserve "queued implies anchored". |
| ScrollAnchoringController.InvalidationDuringAdjustmentIgnored | Source/WebCore/page/scrolling/ScrollAnchoringController.cpp:55-56 | An invalidation while the guard is set has no effect. |
| ScrollAnchoringController.CorrectionScenario | Source/WebCore/page/scrolling/ScrollAnchoringController.cpp:261-271 | An anchor moved from offset (0,100) to (0,140), with the scroller at (0,500), gives one programmatic request to (0,540) with delta (0,40). The scroll type is restored, and the anchor and offset are kept. |
| ScrollAnchoringController.RecordedAnchorHasZeroDelta | Source/WebCore/page/scrolling/ScrollAnchoringController.cpp:256-262 | In a consistent tree, an eligible anchor whose offset was just recorded is live, and its delta is zero. |
| ScrollAnchoringController.FreshAnchorNeedsNoCorrection | Source/WebCore/page/scrolling/ScrollAnchoringController.cpp:238-262 | With unique element identities and an unchanged layout, an update that chooses a new anchor followed by an adjustment issues no scroll call. |
| WgslConstantValue.ArrayOfSize | Source/WebGPU/WGSL/ConstantValue.h:42-45 | `ConstantArray(n)` holds exactly n elements, each value-initialised. |
| WgslConstantValue.VectorOfSize | Source/WebGPU/WGSL/ConstantValue.h:56-59 | `ConstantVector(n)` holds exactly n elements, each value-initialised. |
| WgslConstantValue.MatrixOfSize | Source/WebGPU/WGSL/ConstantValue.h:70-75 | The result is well-formed and keeps columns and rows. It holds columns*rows value-initialised elements whenever that product fits in 32 bits. |
| WgslConstantValue.MatrixOf | Source/WebGPU/WGSL/ConstantValue.h:77-83 | Requires the element count to equal the 32-bit product, and the result is well-formed. |
| WgslConstantValue.ShaderMatrixSize | Source/WebGPU/WGSL/ConstantValue.h:82 | A well-formed matrix with 2 to 4 columns and rows has exactly columns*rows elements. |
| WgslConstantValue.MatrixSizeWraps | Source/WebGPU/WGSL/ConstantValue.h:73 | A 65536 x 65536 matrix built by size has zero elements, because the product wraps. |
| WgslConstantValue.ExactlyOneKind | Source/WebGPU/WGSL/ConstantValue.h:98-106 | Exactly one of the nine `is*` predicates holds of every value. |
| WgslConstantValue.ToBool | Source/WebGPU/WGSL/ConstantValue.h:108 | Defined only on bool values; rewrapping the result gives back the value. |
| WgslConstantValue.ToF32 | Source/WebGPU/WGSL/ConstantValue.h:109 | Defined only on f32 values; rewrapping the result gives back the value. |
| WgslConstantValue.ToVector | Source/WebGPU/WGSL/ConstantValue.h:122-125 | Defined only on vector values; rewrapping the result gives back the value. |
| WgslConstantValue.IntegerValue | Source/WebGPU/WGSL/ConstantValue.h:111-120 | Defined only on i32, u32 and abstract-int values. The result lies in the range of its alternative, and rewrapping it in that alternative gives back the value. |
| WgslConstantValue.Truncate | Source/WebGPU/WGSL/ConstantValue.h:131 | The two's-complement cast lands in the target type's range and is congruent to the input modulo 2^width. |
| WgslConstantValue.TruncateIdentity | Source/WebGPU/WGSL/ConstantValue.h:131-132 | The cast preserves the value if and only if the value is in the target's range. |
| WgslConstantValue.ConvertInteger | Source/WebGPU/WGSL/ConstantValue.h:128-135 | None exactly when the value is outside the target type's range; otherwise Some of the value itself. |
| WgslConstantValue.IntegerConstantsConvert | Source/WebGPU/WGSL/ConstantValue.h:111-135 | Every integer constant converts to i64 unchanged. A u32 constant converts to i32 exactly when it is below 2^31. An i32 constant converts to i32 unchanged. |

## Left out

- Logging (`LOG_WITH_STREAM`) and the `TextStream` printer of verdicts (`ScrollAnchoringController.cpp:161-180`) are diagnostics only.
- `frameView()`, `boundingRectForScrollableArea` and `elementForScrollableArea` (`:46-51`, `:65-80`) are platform downcasts. The scroller's element and bounding rectangle are inputs in `Env`.
- Computing bounding boxes, resolving style and running layout are outside the model. Their results are inputs: the renderer record and the layout phase.
- The frame's scroll-anchoring queue is reduced to a counter of enqueue calls. How the scrolling machinery later carries out an accepted `requestScrollToPosition` is not modelled: only the immediate fallback moves the modelled position.
- `RefPtr`/`WeakPtr` reference counting: the anchor is an identifier plus the `RendererOf` liveness probe.
- Floating point: `computeOffsetFromOwningScroller` returns a `FloatPoint`. The recorded offset and the subtraction at `:261` are `float` arithmetic, and the delta is truncated back to `IntPoint` at `:263`. The model uses unbounded integers. This is exact while offsets stay below 2^23 in magnitude, so that their difference stays below 2^24; float rounding beyond that is not modelled.
- 32-bit overflow of `IntRect`/`IntPoint` coordinate arithmetic is not modelled; coordinates are unbounded integers.
- `convertFloat`, and the payloads of the float and double alternatives beyond their raw bits (`ConstantValue.h:137-149`): floating-point numerics.
- `ConstantValue::dump` (`PrintStream`) is output only.
- The element-taking `ConstantArray` and `ConstantVector` constructors are the datatype constructors themselves, so they need no separate member.

=== FILE: anchor_search.dfy ===
/** The anchor search (`findAnchorElementRecursive`): a pre-order walk of the
    scroller's element subtree driven by the classifier. */
module AnchorSearch {
  import opened Wrappers
  import opened RenderTree
  import opened CandidateExamination

  /** The elements the search examines when it is not cut short by a result:
      every element, in document order, except the descendants of a Select or
      Exclude element. */
  function Visited(ctx: ScrollerContext, e: Element): seq<Element>
    decreases e
  {
    var v := Examine(ctx, e);
    if v.Select? || v.Exclude? then [e] else [e] + VisitedAll(ctx, e.children)
  }

  function VisitedAll(ctx: ScrollerContext, cs: seq<Element>): seq<Element>
    decreases cs
  {
    if cs == [] then [] else Visited(ctx, cs[0]) + VisitedAll(ctx, cs[1..])
  }

  /** The search entry point: a null element yields null. */
  function FindAnchorElementRecursive(ctx: ScrollerContext, e: Option<Element>): (r: Option<Element>)
    ensures e.None? ==> r.None?
    ensures r.Some? ==> e.Some? && Selectable(ctx, r.value) && r.value in Visited(ctx, e.value)
    ensures e.Some? ==> (r.None? <==> forall i :: 0 <= i < |Visited(ctx, e.value)| ==> !Selectable(ctx, Visited(ctx, e.value)[i]))
  {
    match e
    case None => None
    case Some(el) => FindInElement(ctx, el)
  }

  /** The search on one element: Select returns it, Exclude prunes it, Skip and
      Descend look among the children first; Descend falls back to the element. */
  function FindInElement(ctx: ScrollerContext, e: Element): (r: Option<Element>)
    decreases e
    ensures r.Some? ==> Selectable(ctx, r.value)
    ensures r.Some? ==> r.value in Visited(ctx, e)
    ensures r.None? <==> forall i :: 0 <= i < |Visited(ctx, e)| ==> !Selectable(ctx, Visited(ctx, e)[i])
  {
    match Examine(ctx, e)
    case Select => Some(e)
    case Exclude => None
    case Skip => FindInChildren(ctx, e.children)
    case Descend =>
      match FindInChildren(ctx, e.children)
      case Some(x) => Some(x)
      case None => Some(e)
  }

  /** The first non-null result among the children, in document order. */
  function FindInChildren(ctx: ScrollerContext, cs: seq<Element>): (r: Option<Element>)
    decreases cs
    ensures r.Some? ==> Selectable(ctx, r.value)
    ensures r.Some? ==> r.value in VisitedAll(ctx, cs)
    ensures r.None? <==> forall i :: 0 <= i < |VisitedAll(ctx, cs)| ==> !Selectable(ctx, VisitedAll(ctx, cs)[i])
  {
    if cs == [] then None
    else
      var head := FindInElement(ctx, cs[0]);
      var tail := FindInChildren(ctx, cs[1..]);
      assert VisitedAll(ctx, cs) == Visited(ctx, cs[0]) + VisitedAll(ctx, cs[1..]);
      match head
      case Some(x) => Some(x)
      case None => tail
  }

  /** Everything the search examines lies in the searched subtree. */
  lemma {:induction false} VisitedInSubtree(ctx: ScrollerContext, e: Element, x: Element)
    requires x in Visited(ctx, e)
    ensures x in Nodes(e)
    decreases e
  {
    if x != e {
      VisitedAllInSubtrees(ctx, e.children, x);
      var i :| 0 <= i < |e.children| && x in Nodes(e.children[i]);
      ChildNodes(e, i, x);
    }
  }

  lemma {:induction false} VisitedAllInSubtrees(ctx: ScrollerContext, cs: seq<Element>, x: Element)
    requires x in VisitedAll(ctx, cs)
    ensures exists i :: 0 <= i < |cs| && x in Nodes(cs[i])
    decreases cs
  {
    if x in Visited(ctx, cs[0]) {
      VisitedInSubtree(ctx, cs[0], x);
    } else {
      VisitedAllInSubtrees(ctx, cs[1..], x);
      var i :| 0 <= i < |cs[1..]| && x in Nodes(cs[1..][i]);
      assert x in Nodes(cs[i + 1]);
    }
  }

  /** The anchor found lies in the subtree that was searched. */
  lemma FoundInSubtree(ctx: ScrollerContext, e: Element)
    requires FindInElement(ctx, e).Some?
    ensures FindInElement(ctx, e).value in Nodes(e)
  {
    VisitedInSubtree(ctx, e, FindInElement(ctx, e).value);
  }

  /** An excluded element prunes its whole subtree: nothing below it is returned. */
  lemma ExcludePrunesSubtree(ctx: ScrollerContext, e: Element)
    requires Examine(ctx, e) == Exclude
    ensures FindInElement(ctx, e).None?
    ensures Visited(ctx, e) == [e]
  {
  }

  /** Over a child list the search returns the result of the first child, in
      document order, whose own search succeeds. */
  lemma {:induction false} FirstSuccessfulChild(ctx: ScrollerContext, cs: seq<Element>, k: nat)
    requires k < |cs|
    requires forall j :: 0 <= j < k ==> FindInElement(ctx, cs[j]).None?
    requires FindInElement(ctx, cs[k]).Some?
    ensures FindInChildren(ctx, cs) == FindInElement(ctx, cs[k])
    decreases k
  {
    if k > 0 {
      assert FindInElement(ctx, cs[0]).None?;
      FirstSuccessfulChild(ctx, cs[1..], k - 1);
    }
  }

  /** When no child's search succeeds, Descend falls back to the element itself
      and Skip yields nothing. */
  lemma {:induction false} NoChildSucceeds(ctx: ScrollerContext, e: Element)
    requires forall j :: 0 <= j < |e.children| ==> FindInElement(ctx, e.children[j]).None?
    ensures Examine(ctx, e) == Descend ==> FindInElement(ctx, e) == Some(e)
    ensures Examine(ctx, e) == Skip ==> FindInElement(ctx, e).None?
  {
    AllChildrenFail(ctx, e.children);
  }

  lemma {:induction false} AllChildrenFail(ctx: ScrollerContext, cs: seq<Element>)
    requires forall j :: 0 <= j < |cs| ==> FindInElement(ctx, cs[j]).None?
    ensures FindInChildren(ctx, cs).None?
    decreases cs
  {
    if cs != [] {
      assert FindInElement(ctx, cs[0]).None?;
      AllChildrenFail(ctx, cs[1..]);
    }
  }

  /** The result is the first element, in the order the search examines them, at
      which the search could stop: no Select element is examined before it. */
  lemma {:induction false} NoSelectBeforeResult(ctx: ScrollerContext, e: Element) returns (i: nat)
    requires FindInElement(ctx, e).Some?
    ensures i < |Visited(ctx, e)| && Visited(ctx, e)[i] == FindInElement(ctx, e).value
    ensures forall j :: 0 <= j < i ==> !Examine(ctx, Visited(ctx, e)[j]).Select?
    decreases e
  {
    var v := Examine(ctx, e);
    if v.Select? {
      i := 0;
    } else {
      var below := FindInChildren(ctx, e.children);
      if below.Some? {
        var k := NoSelectBeforeResultAll(ctx, e.children);
        assert Visited(ctx, e) == [e] + VisitedAll(ctx, e.children);
        i := k + 1;
      } else {
        i := 0;
      }
    }
  }

  lemma {:induction false} NoSelectBeforeResultAll(ctx: ScrollerContext, cs: seq<Element>) returns (i: nat)
    requires FindInChildren(ctx, cs).Some?
    ensures i < |VisitedAll(ctx, cs)| && VisitedAll(ctx, cs)[i] == FindInChildren(ctx, cs).value
    ensures forall j :: 0 <= j < i ==> !Examine(ctx, VisitedAll(ctx, cs)[j]).Select?
    decreases cs
  {
    var head := Visited(ctx, cs[0]);
    assert VisitedAll(ctx, cs) == head + VisitedAll(ctx, cs[1..]);
    if FindInElement(ctx, cs[0]).Some? {
      i := NoSelectBeforeResult(ctx, cs[0]);
    } else {
      var k := NoSelectBeforeResultAll(ctx, cs[1..]);
      i := |head| + k;
      forall j | 0 <= j < i
        ensures !Examine(ctx, VisitedAll(ctx, cs)[j]).Select?
      {
        if j < |head| {
          assert !Selectable(ctx, head[j]);
        }
      }
    }
  }
}

=== FILE: candidate.dfy ===
/** The candidate classifier (`examineCandidate`): a pure verdict on one element
    given the owning scroller's element and bounding rectangle. */
module CandidateExamination {
  import opened Wrappers
  import opened Geometry
  import opened RenderTree

  datatype CandidateExaminationResult = Select | Exclude | Skip | Descend

  /** What the classifier reads of the owning scroller and its document: the
      scroller's own element (none for a frame without a document), the
      scroller's bounding rectangle, and the document's body-or-frameset. */
  datatype ScrollerContext = ScrollerContext(
    scrollerElement: Option<ElementId>,
    scrollerRect: IntRect,
    bodyId: Option<ElementId>)

  predicate IsScrollerElement(ctx: ScrollerContext, e: Element) {
    ctx.scrollerElement == Some(e.id)
  }

  /** A style or box kind that rules the element and its subtree out. */
  predicate ExcludedByStyle(r: Renderer) {
    || r.overflowAnchor == AnchorNone
    || r.isStickilyPositioned
    || r.isFixedPositioned
    || r.isPseudoElement
    || r.isAnonymousBlock
  }

  /** The body, the root `<html>` element, or inline content that is not an
      atomic inline-level box: never an anchor itself. */
  predicate SkippedByKind(ctx: ScrollerContext, e: Element, r: Renderer) {
    || ctx.bodyId == Some(e.id)
    || e.isHtmlElement
    || (r.isInline && !r.isAtomicInlineLevelBox)
  }

  predicate HasArea(box: IntRect) {
    box.size.width != 0 && box.size.height != 0
  }

  /** The element is rendered and passes every check that precedes the
      geometric comparison with the scroller rectangle. */
  predicate ReachesGeometry(ctx: ScrollerContext, e: Element) {
    && !IsScrollerElement(ctx, e)
    && e.renderer.Some?
    && !ExcludedByStyle(e.renderer.value)
    && !SkippedByKind(ctx, e, e.renderer.value)
    && HasArea(e.renderer.value.boundingBox)
  }

  /** Select or Descend: the verdicts under which the search may return the element. */
  predicate Selectable(ctx: ScrollerContext, e: Element) {
    var v := Examine(ctx, e);
    v.Select? || v.Descend?
  }

  function Examine(ctx: ScrollerContext, e: Element): (v: CandidateExaminationResult)
    // each verdict characterised on its own
    ensures v.Select? <==>
      && ReachesGeometry(ctx, e)
      && (|| ctx.scrollerRect.Contains(e.renderer.value.boundingBox)
          || (ctx.scrollerRect.Intersects(e.renderer.value.boundingBox) && e.renderer.value.isScrollingNode))
    ensures v.Descend? <==>
      && ReachesGeometry(ctx, e)
      && !ctx.scrollerRect.Contains(e.renderer.value.boundingBox)
      && ctx.scrollerRect.Intersects(e.renderer.value.boundingBox)
      && !e.renderer.value.isScrollingNode
    ensures v.Exclude? <==>
      && !IsScrollerElement(ctx, e)
      && e.renderer.Some?
      && (|| ExcludedByStyle(e.renderer.value)
          || (&& ReachesGeometry(ctx, e)
              && !ctx.scrollerRect.Intersects(e.renderer.value.boundingBox)
              && !ctx.scrollerRect.Contains(e.renderer.value.boundingBox)
              && e.renderer.value.isScrollingNode))
    // an element that may be returned is rendered and passed every exclusion
    ensures (v.Select? || v.Descend?) ==>
      && e.renderer.Some?
      && e.renderer.value.overflowAnchor == AnchorAuto
      && !e.renderer.value.isStickilyPositioned
      && !e.renderer.value.isFixedPositioned
      && !e.renderer.value.isPseudoElement
      && !e.renderer.value.isAnonymousBlock
  {
    if IsScrollerElement(ctx, e) then Skip
    else match e.renderer
      case None => Skip
      case Some(r) =>
        if ExcludedByStyle(r) then Exclude
        else if SkippedByKind(ctx, e, r) then Skip
        else if !HasArea(r.boundingBox) then Skip
        else if ctx.scrollerRect.Contains(r.boundingBox) then Select
        else if ctx.scrollerRect.Intersects(r.boundingBox) then
          (if r.isScrollingNode then Select else Descend)
        else if r.isScrollingNode then Exclude
        else Skip
  }

  /** The exclusions are checked before the body/html/inline and zero-size skips:
      an excluded style wins over every later rule. */
  lemma ExclusionPrecedesSkips(ctx: ScrollerContext, e: Element)
    requires !IsScrollerElement(ctx, e)
    requires e.renderer.Some? && ExcludedByStyle(e.renderer.value)
    ensures Examine(ctx, e) == Exclude
  {
  }

  /** The scroller's own element and unrendered elements are skipped, whatever
      their style. */
  lemma ScrollerOrUnrenderedSkipped(ctx: ScrollerContext, e: Element)
    requires IsScrollerElement(ctx, e) || e.renderer.None?
    ensures Examine(ctx, e) == Skip
  {
  }

  /** Sticky and fixed boxes, pseudo-elements, anonymous blocks and boxes with
      `overflow-anchor: none` are never selected nor descended into. */
  lemma NeverSelectedWhenExcluded(ctx: ScrollerContext, e: Element)
    requires e.renderer.Some? && ExcludedByStyle(e.renderer.value)
    ensures !Selectable(ctx, e)
  {
  }

  /** A sized box fully inside the scroller rectangle is selected. */
  lemma ContainedIsSelected(ctx: ScrollerContext, e: Element)
    requires ReachesGeometry(ctx, e)
    requires ctx.scrollerRect.Contains(e.renderer.value.boundingBox)
    ensures Examine(ctx, e) == Select
  {
  }

  /** A worked example: scroller `[0,0,400,300]`; a contained box is selected, a
      partly visible plain box is descended into, a disjoint scrolling node is
      excluded. */
  lemma ClassifierScenario()
    ensures
      var ctx := ScrollerContext(Some(0), Rect(0, 0, 400, 300), None);
      var plain := Renderer(AnchorAuto, false, false, false, false, false, false, false, Rect(0, 0, 0, 0));
      && Examine(ctx, Element(1, false, Some(plain.(boundingBox := Rect(10, 10, 50, 20))), [])) == Select
      && Examine(ctx, Element(2, false, Some(plain.(boundingBox := Rect(390, 290, 50, 50))), [])) == Descend
      && Examine(ctx, Element(3, false, Some(plain.(boundingBox := Rect(500, 500, 10, 10), isScrollingNode := true)), [])) == Exclude
  {
  }
}

=== FILE: constant_value.dfy ===
/** WGSL constant values: a tagged union of scalars, vectors, matrices and
    fixed-size arrays, plus the checked integer narrowing used when folding
    constants. Floating-point payloads are kept as raw bits: no float arithmetic
    is modelled. */
module WgslConstantValue {
  import opened Wrappers

  const TwoTo32: int := 0x1_0000_0000

  type int32 = x: int | -0x8000_0000 <= x < 0x8000_0000
  type uint32 = x: int | 0 <= x < 0x1_0000_0000
  type int64 = x: int | -0x8000_0000_0000_0000 <= x < 0x8000_0000_0000_0000

  /** The alternatives of the variant, in declaration order: float, double,
      int32_t, uint32_t, int64_t, bool, array, vector, matrix. */
  datatype ConstantValue =
    | F32(f32Bits: bv32)
    | AbstractFloat(f64Bits: bv64)
    | I32(i32: int32)
    | U32(u32: uint32)
    | AbstractInt(i64: int64)
    | Bool(b: bool)
    | Array(array: ConstantArray)
    | Vector(vector: ConstantVector)
    | Matrix(matrix: ConstantMatrix)
  {
    predicate IsBool() { Bool? }
    predicate IsI32() { I32? }
    predicate IsU32() { U32? }
    predicate IsAbstractInt() { AbstractInt? }
    predicate IsF32() { F32? }
    predicate IsAbstractFloat() { AbstractFloat? }
    predicate IsVector() { Vector? }
    predicate IsMatrix() { Matrix? }
    predicate IsArray() { Array? }

    predicate IsInteger() { IsI32() || IsU32() || IsAbstractInt() }
  }

  datatype ConstantArray = ConstantArray(elements: seq<ConstantValue>)
  datatype ConstantVector = ConstantVector(elements: seq<ConstantValue>)
  datatype ConstantMatrix = ConstantMatrix(columns: uint32, rows: uint32, elements: seq<ConstantValue>)

  /** A value-initialised `ConstantValue`: the first alternative, a float zero. */
  const DefaultValue: ConstantValue := F32(0)

  /** `columns * rows` computed in 32-bit unsigned arithmetic. */
  function UInt32Product(columns: uint32, rows: uint32): uint32 {
    (columns * rows) % TwoTo32
  }

  /** The matrix invariant the element-taking constructor asserts. */
  predicate MatrixWellFormed(m: ConstantMatrix) {
    |m.elements| == UInt32Product(m.columns, m.rows)
  }

  /** `ConstantArray(size)`: `size` value-initialised elements. */
  function ArrayOfSize(size: nat): (a: ConstantArray)
    ensures |a.elements| == size
    ensures forall i :: 0 <= i < |a.elements| ==> a.elements[i] == DefaultValue
  {
    ConstantArray(seq(size, _ => DefaultValue))
  }

  /** `ConstantVector(size)`: `size` value-initialised elements. */
  function VectorOfSize(size: nat): (v: ConstantVector)
    ensures |v.elements| == size
    ensures forall i :: 0 <= i < |v.elements| ==> v.elements[i] == DefaultValue
  {
    ConstantVector(seq(size, _ => DefaultValue))
  }

  /** `ConstantMatrix(columns, rows)`: value-initialised elements, as many as the
      32-bit product says; that is `columns * rows` unless the product wraps. */
  function MatrixOfSize(columns: uint32, rows: uint32): (m: ConstantMatrix)
    ensures m.columns == columns && m.rows == rows
    ensures MatrixWellFormed(m)
    ensures columns * rows < TwoTo32 ==> |m.elements| == columns * rows
    ensures forall i :: 0 <= i < |m.elements| ==> m.elements[i] == DefaultValue
  {
    ConstantMatrix(columns, rows, seq(UInt32Product(columns, rows), _ => DefaultValue))
  }

  /** `ConstantMatrix(columns, rows, elements)`: the release assertion becomes the
      precondition. */
  function MatrixOf(columns: uint32, rows: uint32, elements: seq<ConstantValue>): (m: ConstantMatrix)
    requires |elements| == UInt32Product(columns, rows)
    ensures MatrixWellFormed(m)
    ensures m.elements == elements && m.columns == columns && m.rows == rows
  {
    ConstantMatrix(columns, rows, elements)
  }

  /** Matrices WGSL can express (2 to 4 columns and rows) have exactly
      `columns * rows` elements. */
  lemma ShaderMatrixSize(m: ConstantMatrix)
    requires MatrixWellFormed(m)
    requires 2 <= m.columns <= 4 && 2 <= m.rows <= 4
    ensures |m.elements| == m.columns * m.rows
  {
  }

  /** The 32-bit product wraps: a 65536 x 65536 matrix built by size has no
      elements at all. */
  lemma MatrixSizeWraps()
    ensures |MatrixOfSize(0x1_0000, 0x1_0000).elements| == 0
  {
    assert UInt32Product(0x1_0000, 0x1_0000) == 0;
  }

  function ToBool(v: ConstantValue): (r: bool)
    requires v.IsBool()
    ensures Bool(r) == v
  {
    v.b
  }

  function ToF32(v: ConstantValue): (r: bv32)
    requires v.IsF32()
    ensures F32(r) == v
  {
    v.f32Bits
  }

  function ToVector(v: ConstantValue): (r: ConstantVector)
    requires v.IsVector()
    ensures Vector(r) == v
  {
    v.vector
  }

  /** `integerValue`: the stored integer, widened to 64 bits; the value is
      recovered from its alternative and this number. */
  function IntegerValue(v: ConstantValue): (r: int64)
    requires v.IsInteger()
    ensures v.IsI32() ==> -0x8000_0000 <= r < 0x8000_0000 && v == I32(r)
    ensures v.IsU32() ==> 0 <= r < TwoTo32 && v == U32(r)
    ensures v.IsAbstractInt() ==> v == AbstractInt(r)
  {
    match v
    case I32(x) => x
    case U32(x) => x
    case AbstractInt(x) => x
  }

  /** Every value satisfies exactly one of the `Is*` predicates. */
  function KindCount(v: ConstantValue): nat {
    (if v.IsBool() then 1 else 0) + (if v.IsI32() then 1 else 0) + (if v.IsU32() then 1 else 0)
    + (if v.IsAbstractInt() then 1 else 0) + (if v.IsF32() then 1 else 0)
    + (if v.IsAbstractFloat() then 1 else 0) + (if v.IsVector() then 1 else 0)
    + (if v.IsMatrix() then 1 else 0) + (if v.IsArray() then 1 else 0)
  }

  lemma ExactlyOneKind(v: ConstantValue)
    ensures KindCount(v) == 1
  {
  }

  // ---------------------------------------------------------------------------
  // convertInteger

  /** The fixed-width integer types a constant may be narrowed to. */
  datatype IntegerType = Int8 | UInt8 | Int16 | UInt16 | Int32 | UInt32 | Int64 | UInt64 {

    predicate IsSigned() {
      Int8? || Int16? || Int32? || Int64?
    }

    /** 2 to the bit width. */
    function Modulus(): int {
      match this
      case Int8 | UInt8 => 0x100
      case Int16 | UInt16 => 0x1_0000
      case Int32 | UInt32 => 0x1_0000_0000
      case Int64 | UInt64 => 0x1_0000_0000_0000_0000
    }

    function MinValue(): int {
      if IsSigned() then -(Modulus() / 2) else 0
    }

    function MaxValue(): int {
      if IsSigned() then Modulus() / 2 - 1 else Modulus() - 1
    }

    predicate InRange(v: int) {
      MinValue() <= v <= MaxValue()
    }
  }

  /** The two's-complement cast of `v` to type `t`: keep the low bits, read them
      back signed or unsigned. */
  function Truncate(t: IntegerType, v: int): (r: int)
    ensures t.InRange(r)
    ensures (r - v) % t.Modulus() == 0
  {
    var m := v % t.Modulus();
    if t.IsSigned() && m >= t.Modulus() / 2 then m - t.Modulus() else m
  }

  /** The cast loses nothing exactly when the value is in range. */
  lemma TruncateIdentity(t: IntegerType, v: int)
    ensures Truncate(t, v) == v <==> t.InRange(v)
  {
    var M := t.Modulus();
    if t.InRange(v) {
      if v >= 0 {
        assert v % M == v;
      } else {
        assert (v + M) % M == v + M;
        assert v % M == v + M;
      }
    }
  }

  /** `convertInteger<To>`: the value when the cast to `t` does not overflow,
      None otherwise. */
  function ConvertInteger(t: IntegerType, v: int): (r: Option<int>)
    ensures r.None? <==> v < t.MinValue() || v > t.MaxValue()
    ensures r.Some? ==> r.value == v
  {
    TruncateIdentity(t, v);
    var cast := Truncate(t, v);
    if cast == v then Some(cast) else None
  }

  /** Every integer constant fits the 64-bit signed type, and a constant of type
      u32 fits i32 exactly when it is below 2^31. */
  lemma IntegerConstantsConvert(c: ConstantValue)
    requires c.IsInteger()
    ensures ConvertInteger(Int64, IntegerValue(c)) == Some(IntegerValue(c))
    ensures c.IsU32() ==> (ConvertInteger(Int32, IntegerValue(c)).Some? <==> c.u32 < 0x8000_0000)
    ensures c.IsI32() ==> ConvertInteger(Int32, IntegerValue(c)) == Some(c.i32 as int)
  {
  }
}

=== FILE: controller.dfy ===
/** The per-scroller scroll-anchoring controller: its anchor state, the
    invalidate / choose / update transitions and the deferred scroll correction.
    The frame's update queue, the layout phase and the scrollable area are
    external; their effects on this controller are recorded in `State`. */
module ScrollAnchoringController {
  import opened Wrappers
  import opened Geometry
  import opened RenderTree
  import opened CandidateExamination
  import opened AnchorSearch
  import opened PriorityCandidate

  datatype LayoutPhase = OutsideLayout | InPreLayout | InRenderTreeLayout | InViewSizeAdjust | InPostLayout

  datatype ScrollType = User | Programmatic

  /** A call the controller makes on its scrollable area, with the scroll type
      the area reported at the moment of the call. */
  datatype ScrollCall =
    | RequestScrollToPosition(target: IntPoint, originalScrollDelta: IntSize, scrollType: ScrollType)
    | ScrollToPositionWithoutAnimation(target: IntPoint, scrollType: ScrollType)

  /** The owning scrollable area as the controller sees it. `acceptsRequests` is
      the answer `requestScrollToPosition` gives; an accepted request is carried
      out later by the scrolling machinery, so only the fallback moves
      `position` here. */
  datatype Scroller = Scroller(
    position: IntPoint,
    currentScrollType: ScrollType,
    acceptsRequests: bool,
    calls: seq<ScrollCall>)

  /** The controller's own fields: the anchor handle, the anchor's offset from
      the scroller when it was chosen, and the two flags. */
  datatype Controller = Controller(
    anchor: Option<ElementId>,
    lastOffset: IntSize,
    queued: bool,
    midAdjust: bool)

  /** Controller plus the effects it has had: the scroller and the number of
      times it queued the scroller with the frame for an anchoring update. */
  datatype State = State(ctrl: Controller, scroller: Scroller, enqueued: nat)

  /** What the controller reads of the world at the time of a call. */
  datatype Env = Env(
    tree: Element,
    hasDocument: bool,
    bodyId: Option<ElementId>,
    focus: Option<seq<nat>>,
    scrollerElement: Option<Element>,
    scrollerRect: IntRect,
    phase: LayoutPhase)

  /** The focused element, when there is one, is an element of the tree. */
  predicate ValidEnv(env: Env) {
    env.focus.Some? ==> ValidPath(env.tree, env.focus.value)
  }

  /** A consistent snapshot: element identifiers are unique and the scroller's
      element belongs to the tree. */
  ghost predicate ConsistentEnv(env: Env) {
    && ValidEnv(env)
    && UniqueIds(env.tree)
    && (env.scrollerElement.Some? ==> env.scrollerElement.value in Nodes(env.tree))
  }

  /** `isQueuedForScrollPositionUpdate` implies an anchor is set. */
  predicate Invariant(c: Controller) {
    c.queued ==> c.anchor.Some?
  }

  function ScrollerElementId(env: Env): Option<ElementId> {
    match env.scrollerElement
    case None => None
    case Some(e) => Some(e.id)
  }

  function Context(env: Env): ScrollerContext {
    ScrollerContext(ScrollerElementId(env), env.scrollerRect, env.bodyId)
  }

  /** `computeOffsetFromOwningScroller`: where the box sits relative to the
      scroller rectangle's origin. */
  function OffsetFromOwningScroller(env: Env, box: Renderer): (d: IntSize)
    ensures env.scrollerRect.location.Move(d) == box.boundingBox.location
  {
    box.boundingBox.location.Minus(env.scrollerRect.location)
  }

  /** The anchor records `x` and its offset at the time of the choice. */
  ghost predicate RecordsAnchor(env: Env, x: Element, c: Controller) {
    && c.anchor == Some(x.id)
    && x.renderer.Some?
    && c.lastOffset == OffsetFromOwningScroller(env, x.renderer.value)
  }

  // ---------------------------------------------------------------------------
  // invalidateAnchorElement

  function InvalidateAnchorElement(s: State): (r: State)
    ensures s.ctrl.midAdjust ==> r == s
    ensures !s.ctrl.midAdjust ==>
      && r.ctrl == Controller(None, ZeroSize, false, false)
      && r.scroller == s.scroller
      && r.enqueued == s.enqueued + 1
    ensures Invariant(s.ctrl) ==> Invariant(r.ctrl)
  {
    if s.ctrl.midAdjust then s
    else
      State(s.ctrl.(anchor := None, lastOffset := ZeroSize, queued := false), s.scroller, s.enqueued + 1)
  }

  // ---------------------------------------------------------------------------
  // Choosing an anchor

  /** `didFindPriorityCandidate`: None when the focused element yields no viable
      candidate, otherwise the controller anchored to it. */
  function DidFindPriorityCandidate(env: Env, c: Controller): (r: Option<Controller>)
    requires ValidEnv(env)
    ensures r.Some? <==> ViablePriorityCandidate(env.tree, env.focus, ScrollerElementId(env)).Some?
    ensures r.Some? ==>
      && RecordsAnchor(env, ViablePriorityCandidate(env.tree, env.focus, ScrollerElementId(env)).value, r.value)
      && r.value.queued == c.queued
      && r.value.midAdjust == c.midAdjust
  {
    match ViablePriorityCandidate(env.tree, env.focus, ScrollerElementId(env))
    case None => None
    case Some(x) =>
      Some(c.(anchor := Some(x.id), lastOffset := OffsetFromOwningScroller(env, x.renderer.value)))
  }

  /** An element the choice may settle on: the focused element's viable
      candidate, or an element the geometric search may return. */
  ghost predicate Eligible(env: Env, x: Element)
    requires ValidEnv(env)
  {
    || ViablePriorityCandidate(env.tree, env.focus, ScrollerElementId(env)) == Some(x)
    || (&& env.scrollerElement.Some?
        && x in Visited(Context(env), env.scrollerElement.value)
        && Selectable(Context(env), x))
  }

  /** `chooseAnchorElement`, entered with no anchor (its only caller checks). */
  function ChooseAnchorElement(env: Env, s: State): (r: State)
    requires ValidEnv(env)
    requires s.ctrl.anchor.None?
    ensures r.scroller == s.scroller && r.enqueued == s.enqueued
    ensures r.ctrl.queued == s.ctrl.queued && r.ctrl.midAdjust == s.ctrl.midAdjust
    // the focused element's candidate takes precedence over the search
    ensures ViablePriorityCandidate(env.tree, env.focus, ScrollerElementId(env)).Some? ==>
      RecordsAnchor(env, ViablePriorityCandidate(env.tree, env.focus, ScrollerElementId(env)).value, r.ctrl)
    // otherwise the element the search returns is the anchor
    ensures (&& ViablePriorityCandidate(env.tree, env.focus, ScrollerElementId(env)).None?
             && FindAnchorElementRecursive(Context(env), env.scrollerElement).Some?) ==>
      RecordsAnchor(env, FindAnchorElementRecursive(Context(env), env.scrollerElement).value, r.ctrl)
    ensures r.ctrl.anchor.Some? ==> exists x :: Eligible(env, x) && RecordsAnchor(env, x, r.ctrl)
    // nothing found: the state is left as it was
    ensures r.ctrl.anchor.None? ==> r == s
    ensures r.ctrl.anchor.None? <==>
      && ViablePriorityCandidate(env.tree, env.focus, ScrollerElementId(env)).None?
      && FindAnchorElementRecursive(Context(env), env.scrollerElement).None?
  {
    match DidFindPriorityCandidate(env, s.ctrl)
    case Some(c) => s.(ctrl := c)
    case None =>
      match FindAnchorElementRecursive(Context(env), env.scrollerElement)
      case None => s
      case Some(x) =>
        var r := s.(ctrl := s.ctrl.(anchor := Some(x.id), lastOffset := OffsetFromOwningScroller(env, x.renderer.value)));
        assert Eligible(env, x) && RecordsAnchor(env, x, r.ctrl);
        r
  }

  // ---------------------------------------------------------------------------
  // updateAnchorElement

  /** The early return of `updateAnchorElement`. */
  predicate UpdateIsSkipped(env: Env, s: State) {
    || s.scroller.position.IsZero()
    || s.ctrl.queued
    || env.phase != OutsideLayout
    || !env.hasDocument
  }

  predicate AnchorIsLive(env: Env, c: Controller) {
    c.anchor.Some? && RendererOf(env.tree, c.anchor.value).Some?
  }

  function UpdateAnchorElement(env: Env, s: State): (r: State)
    requires ValidEnv(env)
    ensures UpdateIsSkipped(env, s) ==> r == s
    ensures r.scroller == s.scroller && r.ctrl.midAdjust == s.ctrl.midAdjust
    ensures Invariant(s.ctrl) ==> Invariant(r.ctrl)
    ensures s.enqueued <= r.enqueued <= s.enqueued + 2
    // queued only with an anchor, and queuing goes through the frame
    ensures !UpdateIsSkipped(env, s) ==> (r.ctrl.queued <==> r.ctrl.anchor.Some?)
    ensures !UpdateIsSkipped(env, s) && r.ctrl.queued ==> r.enqueued > s.enqueued
    // a live anchor is kept together with its recorded offset
    ensures !UpdateIsSkipped(env, s) && AnchorIsLive(env, s.ctrl) ==>
      r.ctrl == s.ctrl.(queued := true) && r.enqueued == s.enqueued + 1
    // under the guard the invalidation is suppressed: even a dead anchor is kept and queued
    ensures !UpdateIsSkipped(env, s) && s.ctrl.midAdjust && s.ctrl.anchor.Some? ==>
      r.ctrl == s.ctrl.(queued := true) && r.enqueued == s.enqueued + 1
    // a missing or dead anchor is dropped (one enqueue for the invalidation),
    // a fresh one is chosen, and the result is queued when one is found
    ensures !UpdateIsSkipped(env, s) && !AnchorIsLive(env, s.ctrl) && !(s.ctrl.midAdjust && s.ctrl.anchor.Some?) ==>
      && (r.ctrl.anchor.None? <==>
           && ViablePriorityCandidate(env.tree, env.focus, ScrollerElementId(env)).None?
           && FindAnchorElementRecursive(Context(env), env.scrollerElement).None?)
      && r.enqueued == s.enqueued + (if s.ctrl.anchor.Some? then 1 else 0) + (if r.ctrl.queued then 1 else 0)
      && (s.ctrl.anchor.Some? && r.ctrl.anchor.None? ==> r.ctrl.lastOffset == ZeroSize)
      && (s.ctrl.anchor.None? && r.ctrl.anchor.None? ==> r == s)
    ensures !UpdateIsSkipped(env, s) && !AnchorIsLive(env, s.ctrl) && !(s.ctrl.midAdjust && s.ctrl.anchor.Some?) ==>
      && (ViablePriorityCandidate(env.tree, env.focus, ScrollerElementId(env)).Some? ==>
            RecordsAnchor(env, ViablePriorityCandidate(env.tree, env.focus, ScrollerElementId(env)).value, r.ctrl))
      && (ViablePriorityCandidate(env.tree, env.focus, ScrollerElementId(env)).None?
          && FindAnchorElementRecursive(Context(env), env.scrollerElement).Some? ==>
            RecordsAnchor(env, FindAnchorElementRecursive(Context(env), env.scrollerElement).value, r.ctrl))
    ensures !UpdateIsSkipped(env, s) && !AnchorIsLive(env, s.ctrl) && !(s.ctrl.midAdjust && s.ctrl.anchor.Some?) && r.ctrl.anchor.Some? ==>
      exists x :: Eligible(env, x) && RecordsAnchor(env, x, r.ctrl)
  {
    if UpdateIsSkipped(env, s) then s
    else
      var s1 := if s.ctrl.anchor.Some? && !AnchorIsLive(env, s.ctrl) then InvalidateAnchorElement(s) else s;
      var s2 := if s1.ctrl.anchor.None? then ChooseAnchorElement(env, s1) else s1;
      if s2.ctrl.anchor.None? then s2
      else s2.(ctrl := s2.ctrl.(queued := true), enqueued := s2.enqueued + 1)
  }

  // ---------------------------------------------------------------------------
  // adjustScrollPositionForAnchoring

  /** The correction the anchor asks for: its current offset minus the recorded
      one; None without an anchor or when the anchor has lost its renderer. */
  function AnchorDelta(env: Env, c: Controller): (d: Option<IntSize>)
    ensures d.Some? <==> AnchorIsLive(env, c)
    ensures d.Some? ==>
      c.lastOffset.width + d.value.width == OffsetFromOwningScroller(env, RendererOf(env.tree, c.anchor.value).value).width
      && c.lastOffset.height + d.value.height == OffsetFromOwningScroller(env, RendererOf(env.tree, c.anchor.value).value).height
  {
    if !AnchorIsLive(env, c) then None
    else Some(OffsetFromOwningScroller(env, RendererOf(env.tree, c.anchor.value).value).Minus(c.lastOffset))
  }

  /** A programmatic scroll by `delta`: the scroll type is switched to
      Programmatic for the request, a rejected request falls back to an
      immediate set, and the previous scroll type is restored. */
  function ScrollBy(sc: Scroller, delta: IntSize): (r: Scroller)
    ensures r.currentScrollType == sc.currentScrollType
    ensures r.acceptsRequests == sc.acceptsRequests
    ensures |sc.calls| < |r.calls| <= |sc.calls| + 2 && r.calls[..|sc.calls|] == sc.calls
    ensures r.calls[|sc.calls|] == RequestScrollToPosition(sc.position.Move(delta), delta, Programmatic)
    ensures sc.acceptsRequests ==> |r.calls| == |sc.calls| + 1 && r.position == sc.position
    ensures !sc.acceptsRequests ==>
      && |r.calls| == |sc.calls| + 2
      && r.calls[|sc.calls| + 1] == ScrollToPositionWithoutAnimation(sc.position.Move(delta), Programmatic)
      && r.position == sc.position.Move(delta)
  {
    var target := sc.position.Move(delta);
    var oldScrollType := sc.currentScrollType;
    var during := sc.(currentScrollType := Programmatic);
    var requested := during.(calls := during.calls + [RequestScrollToPosition(target, delta, during.currentScrollType)]);
    var applied :=
      if requested.acceptsRequests then requested
      else requested.(position := target, calls := requested.calls + [ScrollToPositionWithoutAnimation(target, requested.currentScrollType)]);
    applied.(currentScrollType := oldScrollType)
  }

  /** The body of the adjustment, run with the reentrancy guard on and the
      queued flag already consumed (its old value is `queued`). */
  function AdjustBody(env: Env, s: State, queued: bool): (r: State)
    requires s.ctrl.midAdjust
    ensures r.ctrl == s.ctrl && r.enqueued == s.enqueued
    ensures (!queued || AnchorDelta(env, s.ctrl).None? || AnchorDelta(env, s.ctrl).value.IsZero()) ==> r == s
    ensures queued && AnchorDelta(env, s.ctrl).Some? && !AnchorDelta(env, s.ctrl).value.IsZero() ==>
      r.scroller == ScrollBy(s.scroller, AnchorDelta(env, s.ctrl).value)
  {
    if s.ctrl.anchor.None? || !queued then s
    else if RendererOf(env.tree, s.ctrl.anchor.value).None? then InvalidateAnchorElement(s)
    else
      var delta := OffsetFromOwningScroller(env, RendererOf(env.tree, s.ctrl.anchor.value).value).Minus(s.ctrl.lastOffset);
      if delta.IsZero() then s else s.(scroller := ScrollBy(s.scroller, delta))
  }

  /** `adjustScrollPositionForAnchoring`: the guard is set for the call and
      restored on every exit, the queued flag is consumed, and a live anchor
      that moved is compensated by one programmatic scroll. */
  function AdjustScrollPositionForAnchoring(env: Env, s: State): (r: State)
    // the anchor and its recorded offset survive, even when the anchor has no
    // renderer any more (the invalidation runs under the guard)
    ensures r.ctrl == s.ctrl.(queued := false)
    ensures r.enqueued == s.enqueued
    ensures Invariant(r.ctrl)
    ensures (!s.ctrl.queued || AnchorDelta(env, s.ctrl).None? || AnchorDelta(env, s.ctrl).value.IsZero()) ==>
      r.scroller == s.scroller
    ensures s.ctrl.queued && AnchorDelta(env, s.ctrl).Some? && !AnchorDelta(env, s.ctrl).value.IsZero() ==>
      r.scroller == ScrollBy(s.scroller, AnchorDelta(env, s.ctrl).value)
  {
    var saved := s.ctrl.midAdjust;
    var queued := s.ctrl.queued;
    var guarded := s.(ctrl := s.ctrl.(midAdjust := true, queued := false));
    var after := AdjustBody(env, guarded, queued);
    after.(ctrl := after.ctrl.(midAdjust := saved))
  }

  // ---------------------------------------------------------------------------
  // Properties across calls

  /** The queued flag is consumed: a second adjustment with no update in
      between issues no scroll call. */
  lemma SecondAdjustmentIsNoOp(env: Env, s: State)
    ensures
      var once := AdjustScrollPositionForAnchoring(env, s);
      AdjustScrollPositionForAnchoring(env, once).scroller == once.scroller
  {
  }

  /** Every transition keeps "queued implies anchored". */
  lemma InvariantPreserved(env: Env, s: State)
    requires ValidEnv(env)
    requires Invariant(s.ctrl)
    ensures Invariant(InvalidateAnchorElement(s).ctrl)
    ensures Invariant(UpdateAnchorElement(env, s).ctrl)
    ensures Invariant(AdjustScrollPositionForAnchoring(env, s).ctrl)
    ensures s.ctrl.anchor.None? ==> Invariant(ChooseAnchorElement(env, s).ctrl)
  {
  }

  /** An invalidation that arrives while the adjustment is running changes nothing. */
  lemma InvalidationDuringAdjustmentIgnored(s: State)
    requires s.ctrl.midAdjust
    ensures InvalidateAnchorElement(s) == s
  {
  }

  /** A worked example: the anchor was 100 below the scroller's origin, layout
      moved it to 140, the scroller sits at (0, 500): one programmatic request
      to (0, 540) with delta (0, 40). */
  lemma CorrectionScenario()
    ensures
      var box := Renderer(AnchorAuto, false, false, false, false, false, false, false, Rect(0, 140, 10, 10));
      var env := Env(Element(0, true, None, [Element(1, false, Some(box), [])]), true, None, None, None,
                     Rect(0, 0, 400, 300), OutsideLayout);
      var s := State(Controller(Some(1), IntSize(0, 100), true, false), Scroller(IntPoint(0, 500), User, true, []), 1);
      var r := AdjustScrollPositionForAnchoring(env, s);
      && r.scroller.calls == [RequestScrollToPosition(IntPoint(0, 540), IntSize(0, 40), Programmatic)]
      && r.scroller.currentScrollType == User
      && r.ctrl == Controller(Some(1), IntSize(0, 100), false, false)
  {
    var box := Renderer(AnchorAuto, false, false, false, false, false, false, false, Rect(0, 140, 10, 10));
    var child := Element(1, false, Some(box), []);
    var root := Element(0, true, None, [child]);
    assert Nodes(child) == [child];
    assert NodesAll([child]) == [child];
    assert Nodes(root) == [root, child];
    LookupFindsElement(root, child);
    var env := Env(root, true, None, None, None, Rect(0, 0, 400, 300), OutsideLayout);
    var c := Controller(Some(1), IntSize(0, 100), true, false);
    assert OffsetFromOwningScroller(env, box) == IntSize(0, 140);
    assert AnchorDelta(env, c) == Some(IntSize(0, 40));
  }

  /** An anchor just recorded from the current layout sits exactly where it
      was recorded: its delta is zero. */
  lemma RecordedAnchorHasZeroDelta(env: Env, x: Element, c: Controller)
    requires ConsistentEnv(env)
    requires Eligible(env, x)
    requires RecordsAnchor(env, x, c)
    ensures AnchorDelta(env, c) == Some(ZeroSize)
  {
    var p := ViablePriorityCandidate(env.tree, env.focus, ScrollerElementId(env));
    if p == Some(x) {
      PriorityCandidateInTree(env.tree, env.focus.value, ScrollerElementId(env));
    } else {
      SearchResultInTree(Context(env), env.scrollerElement.value, env.tree, x);
    }
    LookupFindsElement(env.tree, x);
  }

  /** The focused element's candidate is an element of the tree. */
  lemma PriorityCandidateInTree(tree: Element, p: seq<nat>, scrollerElement: Option<ElementId>)
    requires ValidPath(tree, p)
    requires ViablePriorityCandidate(tree, Some(p), scrollerElement).Some?
    ensures ViablePriorityCandidate(tree, Some(p), scrollerElement).value in Nodes(tree)
  {
    var chain := PathNodes(tree, p);
    var c :| IsNearestViable(chain, c) && ViablePriorityCandidate(tree, Some(p), scrollerElement).value == chain[c];
    PathNodesInTree(tree, p, c);
  }

  /** An element the search examines below a scroller element of the tree is
      itself an element of the tree. */
  lemma SearchResultInTree(ctx: ScrollerContext, root: Element, tree: Element, x: Element)
    requires root in Nodes(tree)
    requires x in Visited(ctx, root)
    ensures x in Nodes(tree)
  {
    VisitedInSubtree(ctx, root, x);
    NodesTransitive(x, root, tree);
  }

  /** An anchor that was just chosen and has not moved needs no correction: with
      an unchanged layout, an update that replaces a missing or dead anchor,
      followed by an adjustment, issues no scroll call. */
  lemma FreshAnchorNeedsNoCorrection(env: Env, s: State)
    requires ConsistentEnv(env)
    requires !UpdateIsSkipped(env, s)
    requires !s.ctrl.midAdjust
    requires !AnchorIsLive(env, s.ctrl)
    ensures AdjustScrollPositionForAnchoring(env, UpdateAnchorElement(env, s)).scroller == s.scroller
  {
    var u := UpdateAnchorElement(env, s);
    if u.ctrl.anchor.Some? {
      var x :| Eligible(env, x) && RecordsAnchor(env, x, u.ctrl);
      RecordedAnchorHasZeroDelta(env, x, u.ctrl);
    }
  }
}

=== FILE: geometry.dfy ===
/** Integer points, sizes and rectangles of the layout engine (`IntPoint`, `IntSize`,
    `IntRect`). Coordinates are unbounded integers. */
module Geometry {

  datatype IntPoint = IntPoint(x: int, y: int) {

    predicate IsZero() {
      x == 0 && y == 0
    }

    /** Translates the point by a size: `IntPoint + IntSize`. */
    function Move(d: IntSize): IntPoint {
      IntPoint(x + d.width, y + d.height)
    }

    /** The size that takes `other` to this point: `IntPoint - IntPoint`. */
    function Minus(other: IntPoint): IntSize {
      IntSize(x - other.x, y - other.y)
    }
  }

  datatype IntSize = IntSize(width: int, height: int) {

    predicate IsZero() {
      width == 0 && height == 0
    }

    function Minus(other: IntSize): IntSize {
      IntSize(width - other.width, height - other.height)
    }
  }

  const ZeroSize := IntSize(0, 0)

  /** An axis-aligned rectangle given by its top-left corner and its size. */
  datatype IntRect = IntRect(location: IntPoint, size: IntSize) {

    function MaxX(): int { location.x + size.width }
    function MaxY(): int { location.y + size.height }

    predicate IsEmpty() {
      size.width <= 0 || size.height <= 0
    }

    /** `other` lies inside this rectangle (edges may touch). */
    predicate Contains(other: IntRect) {
      && location.x <= other.location.x
      && other.MaxX() <= MaxX()
      && location.y <= other.location.y
      && other.MaxY() <= MaxY()
    }

    /** The two rectangles share a point of positive area; empty rectangles
        intersect nothing. */
    predicate Intersects(other: IntRect) {
      && !IsEmpty()
      && !other.IsEmpty()
      && location.x < other.MaxX()
      && other.location.x < MaxX()
      && location.y < other.MaxY()
      && other.location.y < MaxY()
    }
  }

  function Rect(x: int, y: int, width: int, height: int): IntRect {
    IntRect(IntPoint(x, y), IntSize(width, height))
  }
}

=== FILE: priority.dfy ===
/** The priority-candidate path: prefer the focused element (or its nearest
    suitable ancestor) over the geometric search, unless the veto walk toward the
    scroller's element rejects it. */
module PriorityCandidate {
  import opened Wrappers
  import opened Geometry
  import opened RenderTree

  /** A rendered element whose box is neither an anonymous block nor
      non-atomic inline content. */
  predicate IsPriorityViable(e: Element) {
    && e.renderer.Some?
    && !e.renderer.value.isAnonymousBlock
    && (!e.renderer.value.isInline || e.renderer.value.isAtomicInlineLevelBox)
  }

  predicate OptsOut(e: Element) {
    e.renderer.Some? && e.renderer.value.overflowAnchor == AnchorNone
  }

  /** `chain` is a parent chain read root first; position `c` is the nearest
      viable element at or above its last element. */
  ghost predicate IsNearestViable(chain: seq<Element>, c: int) {
    && 0 <= c < |chain|
    && IsPriorityViable(chain[c])
    && forall j :: c < j < |chain| ==> !IsPriorityViable(chain[j])
  }

  /** `anchorElementForPriorityCandidate`: starting at position `k` of a root-first
      parent chain, walk toward the root (position -1 is the null parent of the
      root) and return the first viable position. */
  function AnchorElementForPriorityCandidate(chain: seq<Element>, k: int): (r: Option<nat>)
    requires -1 <= k < |chain|
    decreases k + 1
    ensures r.Some? ==> r.value <= k && IsPriorityViable(chain[r.value])
    ensures r.Some? ==> forall j :: r.value < j <= k ==> !IsPriorityViable(chain[j])
    ensures r.None? <==> forall j :: 0 <= j <= k ==> !IsPriorityViable(chain[j])
  {
    if k < 0 then None
    else if IsPriorityViable(chain[k]) then Some(k)
    else AnchorElementForPriorityCandidate(chain, k - 1)
  }

  /** The veto walk: from position `j` toward the root, stopping at the scroller's
      element or past the root. Each step tests the FOCUSED element's
      `overflow-anchor`, not the element being walked over, so the walk vetoes
      exactly when it takes at least one step and the focused element opts out. */
  function VetoedOnWalk(chain: seq<Element>, j: int, scrollerElement: Option<ElementId>, focused: Element): (r: bool)
    requires -1 <= j < |chain|
    decreases j + 1
    ensures r <==> j >= 0 && scrollerElement != Some(chain[j].id) && OptsOut(focused)
  {
    if j < 0 || scrollerElement == Some(chain[j].id) then false
    else if OptsOut(focused) then true
    else VetoedOnWalk(chain, j - 1, scrollerElement, focused)
  }

  /** The lambda `viablePriorityCandidateForElement` applied to the focused
      element, given as a path from the root of the element tree. */
  function ViablePriorityCandidate(tree: Element, focus: Option<seq<nat>>, scrollerElement: Option<ElementId>): (r: Option<Element>)
    requires focus.Some? ==> ValidPath(tree, focus.value)
    ensures focus.None? ==> r.None?
    ensures focus.Some? && r.Some? ==>
      var chain := PathNodes(tree, focus.value);
      exists c :: IsNearestViable(chain, c) && r.value == chain[c]
        && (scrollerElement == Some(chain[c].id) || !OptsOut(chain[|chain| - 1]))
    ensures focus.Some? && r.None? ==>
      var chain := PathNodes(tree, focus.value);
      forall c :: IsNearestViable(chain, c) ==>
        scrollerElement != Some(chain[c].id) && OptsOut(chain[|chain| - 1])
  {
    match focus
    case None => None
    case Some(p) =>
      var chain := PathNodes(tree, p);
      var focused := chain[|chain| - 1];
      match AnchorElementForPriorityCandidate(chain, |chain| - 1)
      case None => None
      case Some(c) =>
        if VetoedOnWalk(chain, c, scrollerElement, focused) then None else Some(chain[c])
  }

  /** A focused element with `overflow-anchor: none` vetoes its candidate unless
      the candidate is the scroller's own element (the walk then takes no step). */
  lemma FocusedOptOutVetoes(tree: Element, p: seq<nat>, scrollerElement: Option<ElementId>)
    requires ValidPath(tree, p)
    requires OptsOut(PathNodes(tree, p)[|p|])
    ensures ViablePriorityCandidate(tree, Some(p), scrollerElement).Some? ==>
      scrollerElement == Some(ViablePriorityCandidate(tree, Some(p), scrollerElement).value.id)
  {
  }

  /** An ancestor's `overflow-anchor: none` does not veto: with the root as the
      scroller's element, a focused span inside a `div` that opts out is still
      the priority candidate. */
  lemma AncestorOptOutIgnored()
    ensures
      var box := Renderer(AnchorAuto, false, false, false, false, false, false, false, Rect(0, 0, 10, 10));
      var span := Element(2, false, Some(box), []);
      var div := Element(1, false, Some(box.(overflowAnchor := AnchorNone)), [span]);
      var root := Element(0, true, Some(box), [div]);
      ViablePriorityCandidate(root, Some([0, 0]), Some(0)) == Some(span)
  {
    var box := Renderer(AnchorAuto, false, false, false, false, false, false, false, Rect(0, 0, 10, 10));
    var span := Element(2, false, Some(box), []);
    var div := Element(1, false, Some(box.(overflowAnchor := AnchorNone)), [span]);
    var root := Element(0, true, Some(box), [div]);
    assert PathNodes(div, [0]) == [div, span];
    assert PathNodes(root, [0, 0]) == [root, div, span];
  }
}

=== FILE: render_tree.dfy ===
/** The element tree the controller reads: each element carries an identity, its
    tag where it matters (`<html>`), an optional render box and its element
    children in document order. Style and layout are already resolved: the box is
    a record of capability flags plus the absolute bounding rectangle. */
module RenderTree {
  import opened Wrappers
  import opened Geometry

  type ElementId = nat

  /** The `overflow-anchor` style property. */
  datatype OverflowAnchor = AnchorAuto | AnchorNone

  /** The queries the controller makes of an element's renderer. `isScrollingNode`
      stands for "is a `RenderBox` with potentially scrollable overflow". */
  datatype Renderer = Renderer(
    overflowAnchor: OverflowAnchor,
    isStickilyPositioned: bool,
    isFixedPositioned: bool,
    isPseudoElement: bool,
    isAnonymousBlock: bool,
    isInline: bool,
    isAtomicInlineLevelBox: bool,
    isScrollingNode: bool,
    boundingBox: IntRect)

  datatype Element = Element(
    id: ElementId,
    isHtmlElement: bool,
    renderer: Option<Renderer>,
    children: seq<Element>)

  /** Every element of the subtree rooted at `e`, in document (pre-)order. */
  function Nodes(e: Element): (r: seq<Element>)
    decreases e
    ensures |r| >= 1 && r[0] == e
  {
    [e] + NodesAll(e.children)
  }

  function NodesAll(cs: seq<Element>): seq<Element>
    decreases cs
  {
    if cs == [] then [] else Nodes(cs[0]) + NodesAll(cs[1..])
  }

  lemma {:induction false} InNodesAll(cs: seq<Element>, x: Element)
    ensures x in NodesAll(cs) <==> exists i :: 0 <= i < |cs| && x in Nodes(cs[i])
    decreases cs
  {
    if cs != [] {
      InNodesAll(cs[1..], x);
      if x in NodesAll(cs[1..]) {
        var i :| 0 <= i < |cs[1..]| && x in Nodes(cs[1..][i]);
        assert x in Nodes(cs[i + 1]);
      }
      if exists i :: 0 <= i < |cs| && x in Nodes(cs[i]) {
        var i :| 0 <= i < |cs| && x in Nodes(cs[i]);
        if i > 0 {
          assert x in Nodes(cs[1..][i - 1]);
        }
      }
    }
  }

  /** The subtree of a child is part of the subtree of its parent. */
  lemma ChildNodes(e: Element, i: nat, x: Element)
    requires i < |e.children|
    requires x in Nodes(e.children[i])
    ensures x in Nodes(e)
  {
    InNodesAll(e.children, x);
  }

  /** Being a descendant-or-self is transitive. */
  lemma {:induction false} NodesTransitive(a: Element, b: Element, c: Element)
    requires a in Nodes(b) && b in Nodes(c)
    ensures a in Nodes(c)
    decreases c
  {
    if b != c {
      InNodesAll(c.children, b);
      var i :| 0 <= i < |c.children| && b in Nodes(c.children[i]);
      NodesTransitive(a, b, c.children[i]);
      ChildNodes(c, i, a);
    }
  }

  /** No two elements of the subtree share an identifier: identifiers stand for
      the engine's pointer identity. */
  ghost predicate UniqueIds(t: Element) {
    var ns := Nodes(t);
    forall i, j :: 0 <= i < j < |ns| ==> ns[i].id != ns[j].id
  }

  /** The position of the first element of `s` with identifier `id`. */
  function IndexOfId(s: seq<Element>, id: ElementId): (r: Option<nat>)
    ensures r.Some? ==> r.value < |s| && s[r.value].id == id
    ensures r.Some? ==> forall j :: 0 <= j < r.value ==> s[j].id != id
    ensures r.None? <==> forall j :: 0 <= j < |s| ==> s[j].id != id
  {
    if s == [] then None
    else if s[0].id == id then Some(0)
    else match IndexOfId(s[1..], id)
      case None => None
      case Some(k) => Some(k + 1)
  }

  /** Resolves an element identifier to the element in the live tree. */
  function Lookup(t: Element, id: ElementId): (r: Option<Element>)
    ensures r.Some? ==> r.value in Nodes(t) && r.value.id == id
    ensures r.None? <==> forall x :: x in Nodes(t) ==> x.id != id
  {
    match IndexOfId(Nodes(t), id)
    case None => None
    case Some(k) => Some(Nodes(t)[k])
  }

  /** The liveness probe of an element handle: the renderer of the element with
      that identifier, or None when it is gone from the tree or has no box. */
  function RendererOf(t: Element, id: ElementId): Option<Renderer> {
    match Lookup(t, id)
    case None => None
    case Some(e) => e.renderer
  }

  /** With unique identifiers, looking up an element's own identifier finds it. */
  lemma LookupFindsElement(t: Element, x: Element)
    requires UniqueIds(t)
    requires x in Nodes(t)
    ensures Lookup(t, x.id) == Some(x)
    ensures RendererOf(t, x.id) == x.renderer
  {
    var ns := Nodes(t);
    var k :| 0 <= k < |ns| && ns[k] == x;
    var r := IndexOfId(ns, x.id);
    assert r.Some?;
  }

  /** `p` is a sequence of child indices that leads from `t` to an element. */
  predicate ValidPath(t: Element, p: seq<nat>)
    decreases p
  {
    p == [] || (p[0] < |t.children| && ValidPath(t.children[p[0]], p[1..]))
  }

  /** The elements met on the way from `t` down along `p`, `t` first: the
      parent-element chain of the element `p` leads to, read root first. */
  function PathNodes(t: Element, p: seq<nat>): (r: seq<Element>)
    requires ValidPath(t, p)
    decreases p
    ensures |r| == |p| + 1 && r[0] == t
    ensures forall i :: 0 <= i < |p| ==> r[i + 1] in r[i].children
  {
    if p == [] then [t] else [t] + PathNodes(t.children[p[0]], p[1..])
  }

  /** Every element of a path chain belongs to the tree. */
  lemma {:induction false} PathNodesInTree(t: Element, p: seq<nat>, i: nat)
    requires ValidPath(t, p)
    requires i < |PathNodes(t, p)|
    ensures PathNodes(t, p)[i] in Nodes(t)
    decreases p
  {
    if i > 0 {
      var c := t.children[p[0]];
      assert PathNodes(t, p)[i] == PathNodes(c, p[1..])[i - 1];
      PathNodesInTree(c, p[1..], i - 1);
      ChildNodes(t, p[0], PathNodes(t, p)[i]);
    }
  }
}

=== FILE: wrappers.dfy ===
/** The optional value used wherever the engine hands out a possibly-null pointer
    (`Element*`, `RefPtr<Element>`, `std::optional<T>`). */
module Wrappers {

  datatype Option<+T> = None | Some(value: T)
}
